=== FILE: README.md ===
# Infinite looping carousel — Dafny model

This project models the algorithmic core of a SwiftUI demo of an infinitely
looping, horizontally scrolling carousel (`LoopingScrollView`) and its
three-row radial variant (`MultiRowLoopingScrollView`). A finite list of N
items is drawn once, followed by a repeated tail, and a scroll delegate jumps
the content offset back by one cycle whenever it leaves `[0, cycle]`, so the
list seems endless. In the multi-row variant every card is also rotated by
its distance from the scroll view's leading edge.

Lengths are Dafny `real`s; item lists are `seq<T>`. Modules:

- `Metrics`: Swift's `rounded()` on non-negative values, and the repetition
  count `repeatingCount`.
- `Render`: the padded sequence (originals, then tail element `j` equal to
  `items[j % N]`), and the same code as written, which traps on an empty list.
- `Layout`: a horizontal stack with fixed spacing. It gives where each cell
  starts and when the layout repeats itself after N cells ("seamless").
- `LoopingScrollView`: the cells the single-row view draws, the scroll
  delegate's state (`Coordinator`), and the wraparound step `DidScroll`.
- `MultiRowLoopingScrollView`: the fixed row table, the three rows sharing one
  delegate, the progress clamp, the card rotation and the per-card effects.

The content width a view reports, the natural width of unframed content, and
the content offset are parameters. Nothing here observes a real scroll view.

Facts about the code that the model makes explicit:

- The repetition count rounds the viewport-to-item ratio to nearest and adds
  one. `Metrics.RepeatCountAgainstCeiling` places it between ceil(v/w) and
  ceil(v/w) + 1, and `Metrics.RoundingBelowCeilingExample` gives a case at
  the lower end. The tail still covers the viewport
  (`Metrics.RepeatCountCoversViewport`).
- The cycle is `N*width + N*spacing`: N gaps, the one after the last
  original included. `LoopingScrollView.BodyIsSeamless` proves this is
  exactly the distance from cell `j` to cell `N + j` of the framed body.
- The forward test is a strict `>`, so an offset equal to the cycle is a
  fixed point of the step, and the range the step maintains is `[0, cycle]`.
- One step brings an offset into that range only from `[-cycle, 2*cycle]`.
  `LoopingScrollView.LandsInCycleOnlyFromNearby` proves the converse for
  every offset, and `LoopingScrollView.SingleStepLimit` gives an offset three
  cycles out that stays out of range after one call.
- The angle per card is −20 degrees.

## Model

| member | source | states |
|---|---|---|
| `Metrics.Rounded` | InfiniteView/View/LoopingScrollView.swift:21 | `rounded()` of a non-negative value is the unique integer r with x − 0.5 < r ≤ x + 0.5, so ties go upward |
| `Metrics.RepeatCount` | InfiniteView/View/LoopingScrollView.swift:21 | the count is at least 1. It is exactly 1 when the item width is ≤ 0, so nothing divides by zero. Otherwise it lies in (v/w + 0.5, v/w + 1.5]. MultiRowLoopingScrollView.swift:20 uses the same rule |
| `Metrics.RepeatCountCoversViewport` | InfiniteView/View/LoopingScrollView.swift:21 | for a positive item width, count × width exceeds the viewport width by more than half an item |
| `Metrics.RepeatCountAgainstCeiling` | InfiniteView/View/LoopingScrollView.swift:21 | the rounded count lies between ceil(v/w) and ceil(v/w) + 1 |
| `Metrics.RoundingBelowCeilingExample` | InfiniteView/View/LoopingScrollView.swift:21 | a 320-wide viewport with 150-wide items gets 3 repetitions; the ceiling rule would give 4 |
| `Render.Padded` | InfiniteView/View/LoopingScrollView.swift:25-43 | the result has length N + count and starts with the originals. Tail element j is `items[j % N]`. With no items it is empty |
| `Render.PaddedAsWritten` | InfiniteView/View/LoopingScrollView.swift:35-36 | evaluating the tail traps exactly when there are no items and at least one tail index. Otherwise the result equals `Padded` |
| `Render.PaddedIsPeriodic` | InfiniteView/View/LoopingScrollView.swift:35-36 | every position k, original or repeated, holds `items[k % N]`, so the sequence repeats with period N |
| `Layout.AdvanceUniform` | InfiniteView/View/LoopingScrollView.swift:24-27 | a run of cells of width w in a stack with spacing s advances by run length × (w + s) |
| `Layout.UniformIsSeamless` | InfiniteView/View/LoopingScrollView.swift:24-27 | if all cells have one width, every cell N + j starts exactly N × width + N × spacing after cell j |
| `Layout.OddCellBreaksSeam` | InfiniteView/View/LoopingScrollView.swift:24-43 | if cell N differs in width from the first N cells, cell N + 1 is not one uniform cycle after cell 1 |
| `Layout.UniformContentWidth` | InfiniteView/View/LoopingScrollView.swift:24-27 | cells of one width span count × (w + s) − s: every cell, and one gap fewer than cells |
| `LoopingScrollView.Body` | InfiniteView/View/LoopingScrollView.swift:24-43 | the cells are the originals, then a tail in which each cell repeats the item N places before it. The length is N + count, every cell is framed, and no items gives no cells |
| `LoopingScrollView.BodyItemsCyclic` | InfiniteView/View/LoopingScrollView.swift:35-36 | cell k of the body draws `items[k % N]` |
| `LoopingScrollView.BodyAsWritten` | InfiniteView/View/LoopingScrollView.swift:24-43 | as drawn, the view traps iff there are no items and at least one repetition. Otherwise it has the cells of `Body`, but only the first N are framed |
| `LoopingScrollView.View` | InfiniteView/View/LoopingScrollView.swift:17-53 | as drawn, the view traps iff there are no items. Otherwise its delegate gets the view's width, spacing and item count, and the rounded count `Metrics.RepeatCount` of line 21, which also sizes the tail. The N originals are framed, and each tail cell repeats the item N places before it, unframed. With a positive width, count × width exceeds the viewport |
| `LoopingScrollView.DidScroll` | InfiniteView/View/LoopingScrollView.swift:113-127 | with no items the offset is unchanged. An offset in [0, cycle] is unchanged, the boundary included. Above the cycle it moves back one cycle, and below 0 it moves forward one. When the cycle is negative both tests can fire and cancel. The result always differs from the input by −cycle, 0 or +cycle. The cycle (`Cycle`) is N × width + N × spacing, the content size plus the spacing size of lines 117-118 |
| `LoopingScrollView.CyclePositive` | InfiniteView/View/LoopingScrollView.swift:117-118 | with items, a positive width and non-negative spacing, the cycle is at least one item width |
| `LoopingScrollView.WrapLandsInCycle` | InfiniteView/View/LoopingScrollView.swift:116-126 | for an input in [−cycle, 2·cycle] the result lies in [0, cycle] and differs from the input by exactly −cycle, 0 or +cycle |
| `LoopingScrollView.LandsInCycleOnlyFromNearby` | InfiniteView/View/LoopingScrollView.swift:116-126 | with items, a positive width and non-negative spacing, a result in [0, cycle] comes only from an input in [−cycle, 2·cycle] |
| `LoopingScrollView.DidScrollIdempotent` | InfiniteView/View/LoopingScrollView.swift:120-126 | applying the step twice to such an input gives the same result as applying it once |
| `LoopingScrollView.SingleStepLimit` | InfiniteView/View/LoopingScrollView.swift:120-122 | with cycle 1, offset 3 becomes 2, still outside the range: one step corrects at most one cycle |
| `LoopingScrollView.BodyIsSeamless` | InfiniteView/View/LoopingScrollView.swift:116-122 | in the framed body, cell N + j starts exactly one delegate cycle after cell j, so the jump is invisible |
| `LoopingScrollView.UnframedTailBreaksSeam` | InfiniteView/View/LoopingScrollView.swift:35-43 | as drawn, with at least two repetitions and first-item content not at the item width, cell N + 1 is not one cycle after cell 1 |
| `LoopingScrollView.HomeExample` | InfiniteView/View/Home.swift:19 | the view drawn with the example screen's width 120 and spacing 10 in a 390-wide viewport has a count of 4. With content 60 wide, its cells break the seam of its own delegate |
| `LoopingScrollView.EmptyItemsTrap` | InfiniteView/View/LoopingScrollView.swift:35-36 | as drawn, an empty item list traps, because every non-negative viewport gets at least one repetition |
| `LoopingScrollView.StepKeepsViewportFilled` | InfiniteView/View/LoopingScrollView.swift:116-126 | take a tail wider than the viewport and an input in [−cycle, 2·cycle]. After the step, the viewport starting at the corrected offset lies inside the content of the framed body, the corrected cells |
| `MultiRowLoopingScrollView.Rows` | InfiniteView/View/MultiRowLoopingScrollView.swift:24-31 | there are three rows with indices 0, 1, 2. Their scales are 1.0, 0.8, 0.6, strictly decreasing and in (0, 1]. The offsets are 0, `rowOffsetAmount`, 0 |
| `MultiRowLoopingScrollView.Body` | InfiniteView/View/MultiRowLoopingScrollView.swift:57-72 | there are three rows, each with its table entry, and each holds the framed cells of `LoopingScrollView.Body` |
| `MultiRowLoopingScrollView.View` | InfiniteView/View/MultiRowLoopingScrollView.swift:16-42 | as drawn, the view traps iff there are no items, through the same remainder as the single-row tail (`Render.PaddedAsWritten`, line 66). Otherwise the shared delegate gets the width, spacing, item count and the rounded count `Metrics.RepeatCount` of line 20. There are three rows, each with its table entry, and each holds the framed body for that count |
| `MultiRowLoopingScrollView.ViewFramesTheSingleRowTail` | InfiniteView/View/MultiRowLoopingScrollView.swift:57-77 | against the single-row view: both trap on the same inputs and pass the same values to `ScrollViewHelper` (lines 36-41 against LoopingScrollView.swift:47-52). Every row has the single-row view's cells, item for item, but every card is framed |
| `MultiRowLoopingScrollView.EveryRowSeamless` | InfiniteView/View/MultiRowLoopingScrollView.swift:36-41 | with items, every row of the view as drawn repeats after one cycle of the shared delegate |
| `MultiRowLoopingScrollView.StepKeepsEveryRowFilled` | InfiniteView/View/MultiRowLoopingScrollView.swift:57-77 | with items, a positive width and non-negative spacing, an input in [−cycle, 2·cycle] steps to an offset whose viewport lies inside every row's content. Each row's content is measured in its own layout coordinates, before the middle row's `.offset(x: rowOffsetAmount)` of line 70 is applied |
| `MultiRowLoopingScrollView.CappedProgress` | InfiniteView/View/MultiRowLoopingScrollView.swift:97 | the result lies in [−3, 3]. Negative progress maps into [−3, 0] and the rest into [0, 3]. Progress within [−3, 3] is unchanged, and progress beyond it goes to the nearer bound |
| `MultiRowLoopingScrollView.CappedProgressIsClamp` | InfiniteView/View/MultiRowLoopingScrollView.swift:97 | the two-sided min/max expression equals the plain symmetric clamp to [−3, 3] |
| `MultiRowLoopingScrollView.CappedProgressShape` | InfiniteView/View/MultiRowLoopingScrollView.swift:97 | the cap is monotone, commutes with negation and is idempotent |
| `MultiRowLoopingScrollView.CardRotation` | InfiniteView/View/MultiRowLoopingScrollView.swift:91-100 | the rotation lies in [−60, 60] and is 0 at minX = 0. For minX / width in [−3, 3] it is −20 × minX / width. Positive progress gives a rotation ≤ 0, negative progress one ≥ 0. Beyond that it saturates at exactly −60 for progress above 3 and +60 below −3: the rotation is −20 × the symmetric clamp of minX / width |
| `MultiRowLoopingScrollView.RotationMonotone` | InfiniteView/View/MultiRowLoopingScrollView.swift:92-99 | for a positive card width, the rotation does not increase as minX grows |
| `MultiRowLoopingScrollView.RotationSymmetric` | InfiniteView/View/MultiRowLoopingScrollView.swift:95-99 | mirrored positions give mirrored rotations |
| `MultiRowLoopingScrollView.ContentEffect` | InfiniteView/View/MultiRowLoopingScrollView.swift:75-87 | a card takes its row's scale and a rotation within [−60, 60]. Its horizontal shift cancels its own minX. Its rotation is `CardRotation` of its own minX, and its lift and drop net −curveHeight / 5 |
| `MultiRowLoopingScrollView.LeadingCardUpright` | InfiniteView/View/MultiRowLoopingScrollView.swift:75-87 | a bottom-row card at minX = 0 is upright, unscaled and unshifted. Its two vertical offsets net −curveHeight / 5 |

## Findings

| source | as written | input that shows it | evidently intended | confidence | as-written member | corrected member |
|---|---|---|---|---|---|---|
| InfiniteView/View/LoopingScrollView.swift:35-36 | tail index `index % items.count` is taken even with no items (also MultiRowLoopingScrollView.swift:65-66) | `items = []`, any width, viewport width ≥ 0: repeatingCount ≥ 1, so `0 % 0` is evaluated | an empty carousel draws nothing, as the scroll handler's guard at LoopingScrollView.swift:114 treats it | medium, not executed | `Render.PaddedAsWritten`, `LoopingScrollView.EmptyItemsTrap`, `LoopingScrollView.View`, `MultiRowLoopingScrollView.View` | `Render.Padded` |
| InfiniteView/View/LoopingScrollView.swift:35-43 | repeated cells lack the `.frame(width: width)` the originals get at line 27 | items `[a]` in the example screen (width 120, spacing 10), viewport 390, content of `a` 60 wide: cell 2 starts 70 after cell 1, not 130 | every cell pinned to the item width, so a jump of N × (width + spacing) is invisible, as MultiRowLoopingScrollView.swift:75-77 does | medium, not executed | `LoopingScrollView.BodyAsWritten`, `LoopingScrollView.View`, `LoopingScrollView.UnframedTailBreaksSeam`, `LoopingScrollView.HomeExample` | `LoopingScrollView.Body`, `LoopingScrollView.BodyIsSeamless` |

## Left out

- SwiftUI composition is presentation with no stated behaviour and is not modelled. This covers `GeometryReader`, the lazy stacks' rendering and recycling, the `scrollTransition` offset and opacity, the `Circle` background, `safeAreaPadding`, `scrollTargetBehavior`, vertical padding, `rowHeight` and `rowSpacing`.
- Installing the delegate is UIKit plumbing and timing, and is not modelled. This covers the 0.06 s deferred dispatch, the `superview` chain, `isAdded` and `defaultDelegate`. So is the copy of the view's values into the coordinator in `updateUIView`. `Coordinator` holds the values the view passes, as `View` builds them.
- The commented-out forwarding of `scrollViewWillEndDragging` is not modelled, because it is not code.
- Writing the content offset may notify the delegate again, re-entrantly. That is host behaviour. `DidScroll` models one call on one captured offset.
- Content margins and insets are not modelled: the example screen's `.contentMargins` and the scroll view's insets. The offset is taken as the viewport's leading edge in content coordinates.
- `Item.swift`, `ContentView.swift` and the rest of `Home.swift` are sample data and the navigation shell. The model uses only the example screen's width and spacing.
- `CGFloat` is modelled as exact `real`. Rounding error, overflow of the `Int(...)` conversion, infinities and NaN are not modelled.
- Metrics.RepeatCount: requires a non-negative viewport width, because a view's size is never negative. Swift's `rounded()` is modelled only for non-negative arguments.
- MultiRowLoopingScrollView.CardRotation: requires a non-zero card width. A zero width divides to an IEEE infinity or NaN, which `real` cannot express.
- MultiRowLoopingScrollView.View: the `ScrollViewHelper` installed at MultiRowLoopingScrollView.swift:36 is declared outside the files modelled here; the only declaration shown, LoopingScrollView.swift:60, is `fileprivate`. It is modelled as the `Coordinator` of LoopingScrollView.swift:94-127, so `EveryRowSeamless`, `StepKeepsEveryRowFilled` and the delegate half of `ViewFramesTheSingleRowTail` hold for that helper. A helper with another guard or cycle, such as N − 1 gaps, is not covered.
- MultiRowLoopingScrollView.ContentEffect: records the effect parameters in order, not the composed geometric transform of the card.

=== FILE: layout.dfy ===
/** Horizontal stack layout: cells placed left to right with a fixed gap
    between neighbours, as a lazy horizontal stack lays them out. */
module Layout {

  /** Distance covered by a run of cells: each cell adds its width and the
      gap that follows it. */
  function Advance(widths: seq<real>, spacing: real): real
    decreases |widths|
  {
    if |widths| == 0 then 0.0
    else Advance(widths[..|widths| - 1], spacing) + widths[|widths| - 1] + spacing
  }

  /** Leading edge of cell `k` in content coordinates. */
  function Start(widths: seq<real>, spacing: real, k: nat): real
    requires k <= |widths|
  {
    Advance(widths[..k], spacing)
  }

  /** Width of the whole content: every cell, and one gap fewer than cells. */
  function ContentWidth(widths: seq<real>, spacing: real): real
  {
    if |widths| == 0 then 0.0 else Advance(widths, spacing) - spacing
  }

  /** The layout repeats itself after `n` cells: every cell from position
      `n` on starts exactly `cycle` after the cell `n` places before it, so
      jumping the offset by `cycle` shows the same picture. */
  predicate Seamless(widths: seq<real>, spacing: real, n: nat, cycle: real)
  {
    n <= |widths| &&
    forall j :: 0 <= j < |widths| - n ==> Start(widths, spacing, n + j) - Start(widths, spacing, j) == cycle
  }

  /** Cells of one common width advance by that width plus the gap, each. */
  lemma {:induction false} AdvanceUniform(widths: seq<real>, width: real, spacing: real)
    requires forall i :: 0 <= i < |widths| ==> widths[i] == width
    ensures Advance(widths, spacing) == |widths| as real * (width + spacing)
    decreases |widths|
  {
    if |widths| > 0 {
      AdvanceUniform(widths[..|widths| - 1], width, spacing);
      assert |widths| as real * (width + spacing)
          == (|widths| - 1) as real * (width + spacing) + (width + spacing);
    }
  }

  /** Cells of one common width repeat after any `n` of them, with a cycle of
      `n` widths and `n` gaps. */
  lemma UniformIsSeamless(widths: seq<real>, width: real, spacing: real, n: nat, cycle: real)
    requires forall i :: 0 <= i < |widths| ==> widths[i] == width
    requires n <= |widths|
    requires cycle == n as real * width + n as real * spacing
    ensures Seamless(widths, spacing, n, cycle)
  {
    assert cycle == n as real * (width + spacing);
    forall j | 0 <= j < |widths| - n
      ensures Start(widths, spacing, n + j) - Start(widths, spacing, j) == cycle
    {
      AdvanceUniform(widths[..n + j], width, spacing);
      AdvanceUniform(widths[..j], width, spacing);
      SplitProduct(n as real, j as real, width + spacing);
    }
  }

  lemma SplitProduct(a: real, b: real, x: real)
    ensures (a + b) * x - b * x == a * x
  {
  }

  /** If the first `n` cells share one width but cell `n` does not, cell
      `n + 1` is not one uniform cycle after cell 1. */
  lemma OddCellBreaksSeam(widths: seq<real>, width: real, spacing: real, n: nat, cycle: real)
    requires 0 < n && n + 2 <= |widths|
    requires forall i :: 0 <= i < n ==> widths[i] == width
    requires widths[n] != width
    requires cycle == n as real * width + n as real * spacing
    ensures !Seamless(widths, spacing, n, cycle)
  {
    var prefix := widths[..n];
    AdvanceUniform(prefix, width, spacing);
    AdvanceUniform(widths[..1], width, spacing);
    assert widths[..n + 1][..n] == prefix;
    assert Start(widths, spacing, n + 1) == Advance(prefix, spacing) + widths[n] + spacing;
    assert Start(widths, spacing, n + 1) - Start(widths, spacing, 1) != cycle;
  }

  /** Cells of one common width fill that width and one gap fewer than cells. */
  lemma UniformContentWidth(widths: seq<real>, width: real, spacing: real, cells: nat)
    requires forall i :: 0 <= i < |widths| ==> widths[i] == width
    requires |widths| == cells > 0
    ensures ContentWidth(widths, spacing) == cells as real * (width + spacing) - spacing
  {
    AdvanceUniform(widths, width, spacing);
  }
}

=== FILE: looping_scroll_view.dfy ===
/** The single-row looping carousel: the cells it draws, and the scroll
    delegate that keeps the content offset inside one cycle of the items. */
module LoopingScrollView {
  import Metrics
  import Render
  import Layout

  /** One cell of the horizontal stack: the item it draws, and whether
      `.frame(width:)` pins it to the configured item width. */
  datatype Cell<T> = Cell(item: T, framed: bool)

  /** Laid-out widths: a framed cell takes the configured width, any other
      cell the natural width its content asks for. */
  function CellWidths<T>(cells: seq<Cell<T>>, width: real, intrinsic: T -> real): (widths: seq<real>)
    ensures |widths| == |cells|
    ensures forall k :: 0 <= k < |cells| && cells[k].framed ==> widths[k] == width
    ensures forall k :: 0 <= k < |cells| && !cells[k].framed ==> widths[k] == intrinsic(cells[k].item)
  {
    seq(|cells|, k requires 0 <= k < |cells| => if cells[k].framed then width else intrinsic(cells[k].item))
  }

  /** The cells drawn for `count` repetitions: the originals, then a tail in
      which every cell repeats the item `N` places before it; every cell is
      pinned to the item width. */
  function Body<T>(items: seq<T>, count: nat): (cells: seq<Cell<T>>)
    ensures |items| == 0 ==> cells == []
    ensures |items| > 0 ==> |cells| == |items| + count
    ensures forall k :: 0 <= k < |cells| ==> cells[k].framed
    ensures forall k :: 0 <= k < |items| && k < |cells| ==> cells[k].item == items[k]
    ensures forall k :: |items| <= k < |cells| ==> cells[k].item == cells[k - |items|].item
  {
    var padded := Render.Padded(items, count);
    if |items| > 0 then
      Render.PaddedRepeats(items, count);
      Frame(padded, |padded|)
    else []
  }

  /** Cell `k` of the body draws the item at `k` modulo the item count. */
  lemma BodyItemsCyclic<T>(items: seq<T>, count: nat)
    requires |items| > 0
    ensures forall k :: 0 <= k < |Body(items, count)| ==> Body(items, count)[k].item == items[k % |items|]
  {
    Render.PaddedIsPeriodic(items, count);
  }

  /** Tags the first `framedPrefix` items as framed and the rest as not. */
  function Frame<T>(items: seq<T>, framedPrefix: nat): (cells: seq<Cell<T>>)
    ensures |cells| == |items|
    ensures forall k :: 0 <= k < |items| ==> cells[k] == Cell(items[k], k < framedPrefix)
  {
    seq(|items|, k requires 0 <= k < |items| => Cell(items[k], k < framedPrefix))
  }

  /** The cells as the view draws them: the repeated items are not given
      `.frame(width:)`, and with no items the first repeated index is reduced
      modulo zero. Apart from the framing, the cells are those of `Body`. */
  function BodyAsWritten<T>(items: seq<T>, count: nat): (r: Render.Drawn<seq<Cell<T>>>)
    ensures r.Trapped? <==> |items| == 0 && count > 0
    ensures r.Ok? ==> |r.value| == |Body(items, count)|
    ensures r.Ok? ==> forall k :: 0 <= k < |r.value| ==>
      r.value[k].item == Body(items, count)[k].item && (r.value[k].framed <==> k < |items|)
  {
    match Render.PaddedAsWritten(items, count)
    case Trapped(fault) => Render.Trapped(fault)
    case Ok(padded) => Render.Ok(Frame(padded, |items|))
  }

  /** The state the scroll delegate keeps: the view's item width, spacing,
      item count and repetition count. */
  datatype Coordinator = Coordinator(width: real, spacing: real, itemsCount: nat, repeatingCount: nat)

  /** What the view hands to the layout: its cells and the scroll delegate. */
  datatype Drawing<T> = Drawing(cells: seq<Cell<T>>, helper: Coordinator)

  /** The view for a viewport of the given width, as drawn: one repetition
      count, rounded from the viewport width, sizes both the tail and the
      delegate. The originals are pinned to the item width and the tail is
      not, and with no items the first tail index traps. */
  function View<T>(items: seq<T>, width: real, spacing: real, viewportWidth: real): (r: Render.Drawn<Drawing<T>>)
    requires viewportWidth >= 0.0
    ensures r.Trapped? <==> |items| == 0
    ensures r.Ok? ==> r.value.helper == Coordinator(width, spacing, |items|, Metrics.RepeatCount(width, viewportWidth))
    ensures r.Ok? ==> |r.value.cells| == |items| + r.value.helper.repeatingCount
    ensures r.Ok? ==> forall k :: 0 <= k < |items| ==> r.value.cells[k] == Cell(items[k], true)
    ensures r.Ok? ==> forall k :: |items| <= k < |r.value.cells| ==>
      r.value.cells[k] == Cell(r.value.cells[k - |items|].item, false)
    ensures r.Ok? && width > 0.0 ==> r.value.helper.repeatingCount as real * width > viewportWidth
  {
    var count := Metrics.RepeatCount(width, viewportWidth);
    assert width > 0.0 ==> count as real * width > viewportWidth by {
      if width > 0.0 {
        Metrics.RepeatCountCoversViewport(width, viewportWidth);
      }
    }
    match BodyAsWritten(items, count)
    case Trapped(fault) => Render.Trapped(fault)
    case Ok(cells) => Render.Ok(Drawing(cells, Coordinator(width, spacing, |items|, count)))
  }

  /** Width of one cycle: every item and the gap after it. */
  function Cycle(c: Coordinator): real
  {
    c.itemsCount as real * c.width + c.itemsCount as real * c.spacing
  }

  /** The wraparound step run on every scroll event. Both tests read the
      offset captured before either correction, so at most one correction
      applies unless the cycle is negative, when the two cancel. */
  function DidScroll(c: Coordinator, contentOffset: real): (r: real)
    ensures c.itemsCount == 0 ==> r == contentOffset
    ensures 0.0 <= contentOffset <= Cycle(c) ==> r == contentOffset
    ensures r == contentOffset || r == contentOffset - Cycle(c) || r == contentOffset + Cycle(c)
    ensures c.itemsCount > 0 && contentOffset > Cycle(c) && contentOffset >= 0.0 ==> r == contentOffset - Cycle(c)
    ensures c.itemsCount > 0 && contentOffset < 0.0 && contentOffset <= Cycle(c) ==> r == contentOffset + Cycle(c)
    ensures Cycle(c) < contentOffset < 0.0 ==> r == contentOffset
  {
    if c.itemsCount == 0 then contentOffset
    else
      var minX := contentOffset;
      var cycle := Cycle(c);
      var afterForward := if minX > cycle then contentOffset - cycle else contentOffset;
      if minX < 0.0 then afterForward + cycle else afterForward
  }

  /** A positive item width and non-negative spacing give a positive cycle. */
  lemma CyclePositive(c: Coordinator)
    requires c.itemsCount > 0 && c.width > 0.0 && c.spacing >= 0.0
    ensures Cycle(c) >= c.width > 0.0
  {
    var n := c.itemsCount as real;
    assert n * c.spacing >= 0.0;
    assert n * c.width >= c.width by {
      assert (n - 1.0) * c.width >= 0.0;
    }
  }

  /** An offset at most one cycle outside `[0, Cycle]` lands inside it after
      one step, having moved by exactly one cycle or not at all. */
  lemma WrapLandsInCycle(c: Coordinator, contentOffset: real)
    requires c.itemsCount > 0 && c.width > 0.0 && c.spacing >= 0.0
    requires -Cycle(c) <= contentOffset <= 2.0 * Cycle(c)
    ensures 0.0 <= DidScroll(c, contentOffset) <= Cycle(c)
    ensures DidScroll(c, contentOffset) - contentOffset in {-Cycle(c), 0.0, Cycle(c)}
  {
    CyclePositive(c);
  }

  /** Conversely, one step lands in `[0, Cycle]` only from an offset at most
      one cycle outside it. */
  lemma LandsInCycleOnlyFromNearby(c: Coordinator, contentOffset: real)
    requires c.itemsCount > 0 && c.width > 0.0 && c.spacing >= 0.0
    requires 0.0 <= DidScroll(c, contentOffset) <= Cycle(c)
    ensures -Cycle(c) <= contentOffset <= 2.0 * Cycle(c)
  {
    CyclePositive(c);
  }

  /** Once the offset is in range, further steps leave it alone. */
  lemma DidScrollIdempotent(c: Coordinator, contentOffset: real)
    requires c.itemsCount > 0 && c.width > 0.0 && c.spacing >= 0.0
    requires -Cycle(c) <= contentOffset <= 2.0 * Cycle(c)
    ensures DidScroll(c, DidScroll(c, contentOffset)) == DidScroll(c, contentOffset)
  {
    WrapLandsInCycle(c, contentOffset);
  }

  /** A single step does not bring back an offset three cycles out: with one
      item of width 1, offset 3 becomes 2, still a cycle beyond the range. */
  lemma SingleStepLimit()
    ensures var c := Coordinator(1.0, 0.0, 1, 2);
      Cycle(c) == 1.0 && DidScroll(c, 3.0) == 2.0
  {
  }

  /** With every cell pinned to the item width, cell `N + j` starts exactly
      one cycle after cell `j`: the cycle counts `N` gaps, the one after the
      last original included, so the jump made by the step is invisible. */
  lemma BodyIsSeamless<T>(items: seq<T>, count: nat, width: real, spacing: real, intrinsic: T -> real)
    requires |items| > 0
    ensures Layout.Seamless(CellWidths(Body(items, count), width, intrinsic), spacing,
                            |items|, Cycle(Coordinator(width, spacing, |items|, count)))
  {
    var ws := CellWidths(Body(items, count), width, intrinsic);
    BodyWidthsUniform(items, count, width, intrinsic);
    Layout.UniformIsSeamless(ws, width, spacing, |items|, Cycle(Coordinator(width, spacing, |items|, count)));
  }

  /** Every cell of the body is laid out at the item width. */
  lemma BodyWidthsUniform<T>(items: seq<T>, count: nat, width: real, intrinsic: T -> real)
    ensures var ws := CellWidths(Body(items, count), width, intrinsic);
      forall k :: 0 <= k < |ws| ==> ws[k] == width
  {
    var cells := Body(items, count);
    var ws := CellWidths(cells, width, intrinsic);
    forall k | 0 <= k < |ws|
      ensures ws[k] == width
    {
      assert cells[k].framed;
    }
  }

  /** As written, the first repeated cell takes its content's own width, so
      whenever that differs from the item width and two or more items are
      repeated, cell `N + 1` is not one cycle after cell 1 and the wraparound
      jump shifts the picture. */
  lemma UnframedTailBreaksSeam<T>(items: seq<T>, count: nat, width: real, spacing: real, intrinsic: T -> real)
    requires |items| > 0 && count >= 2
    requires intrinsic(items[0]) != width
    ensures BodyAsWritten(items, count).Ok?
    ensures !Layout.Seamless(CellWidths(BodyAsWritten(items, count).value, width, intrinsic), spacing,
                             |items|, Cycle(Coordinator(width, spacing, |items|, count)))
  {
    var cells := BodyAsWritten(items, count).value;
    var ws := CellWidths(cells, width, intrinsic);
    var n := |items|;
    assert cells[n].item == items[0] by {
      assert Body(items, count)[n].item == Body(items, count)[0].item;
    }
    assert !cells[n].framed;
    forall i | 0 <= i < n
      ensures ws[i] == width
    {
      assert cells[i].framed;
    }
    Layout.OddCellBreaksSeam(ws, width, spacing, n, Cycle(Coordinator(width, spacing, |items|, count)));
  }

  /** The example screen: items 120 wide with a gap of 10 in a 390-wide
      viewport repeat four items, and content 60 wide breaks the seam of the
      view as drawn. */
  lemma HomeExample()
    ensures View([0], 120.0, 10.0, 390.0).Ok?
    ensures View([0], 120.0, 10.0, 390.0).value.helper.repeatingCount == 4
    ensures !Layout.Seamless(CellWidths(View([0], 120.0, 10.0, 390.0).value.cells, 120.0, (_: int) => 60.0), 10.0,
                             1, Cycle(View([0], 120.0, 10.0, 390.0).value.helper))
  {
    assert 390.0 / 120.0 == 3.25;
    assert Metrics.RepeatCount(120.0, 390.0) == 4;
    assert View([0], 120.0, 10.0, 390.0).value.cells == BodyAsWritten([0], 4).value;
    UnframedTailBreaksSeam([0], 4, 120.0, 10.0, (_: int) => 60.0);
  }

  /** As written, a view with no items reaches the remainder by zero: every
      viewport gets at least one repetition. */
  lemma EmptyItemsTrap<T>(width: real, viewportWidth: real)
    requires viewportWidth >= 0.0
    ensures BodyAsWritten<T>([], Metrics.RepeatCount(width, viewportWidth)) == Render.Trapped(Render.DivisionByZero)
  {
  }

  /** After the step, the viewport lies entirely within the content of the
      framed body whenever the repeated tail is wider than the viewport, as
      the count chosen by `View` is: any offset in `[0, Cycle]` leaves room
      for a full viewport of cells. */
  lemma StepKeepsViewportFilled<T>(items: seq<T>, count: nat, width: real, spacing: real, viewportWidth: real,
                                   intrinsic: T -> real, contentOffset: real)
    requires |items| > 0 && width > 0.0 && spacing >= 0.0
    requires count >= 1 && count as real * width > viewportWidth
    requires -Cycle(Coordinator(width, spacing, |items|, count)) <= contentOffset
    requires contentOffset <= 2.0 * Cycle(Coordinator(width, spacing, |items|, count))
    ensures 0.0 <= DidScroll(Coordinator(width, spacing, |items|, count), contentOffset)
    ensures DidScroll(Coordinator(width, spacing, |items|, count), contentOffset) + viewportWidth
         <= Layout.ContentWidth(CellWidths(Body(items, count), width, intrinsic), spacing)
  {
    var ws := CellWidths(Body(items, count), width, intrinsic);
    WrapLandsInCycle(Coordinator(width, spacing, |items|, count), contentOffset);
    BodyContentWidth(items, count, width, spacing, intrinsic, ws, |items| + count);
    StepWithinTail(|items|, count, width, spacing, viewportWidth, contentOffset);
  }

  /** The stepped offset plus the viewport stays within `n + count` cells
      and their gaps. */
  lemma StepWithinTail(n: nat, count: nat, width: real, spacing: real, viewportWidth: real, contentOffset: real)
    requires n > 0 && width > 0.0 && spacing >= 0.0
    requires count >= 1 && count as real * width > viewportWidth
    requires -Cycle(Coordinator(width, spacing, n, count)) <= contentOffset
    requires contentOffset <= 2.0 * Cycle(Coordinator(width, spacing, n, count))
    ensures DidScroll(Coordinator(width, spacing, n, count), contentOffset) + viewportWidth
         <= (n + count) as real * (width + spacing) - spacing
  {
    var c := Coordinator(width, spacing, n, count);
    WrapLandsInCycle(c, contentOffset);
    TailOutrunsViewport(n as real, count as real, (n + count) as real, width, spacing,
                        viewportWidth, DidScroll(c, contentOffset));
  }

  /** The drawn content spans all its cells at the item width, and the gaps
      between them. */
  lemma BodyContentWidth<T>(items: seq<T>, count: nat, width: real, spacing: real, intrinsic: T -> real,
                            widths: seq<real>, cells: nat)
    requires |items| > 0
    requires widths == CellWidths(Body(items, count), width, intrinsic)
    requires cells == |items| + count
    ensures Layout.ContentWidth(widths, spacing) == cells as real * (width + spacing) - spacing
  {
    BodyWidthsUniform(items, count, width, intrinsic);
    Layout.UniformContentWidth(widths, width, spacing, cells);
  }

  /** With a tail wider than the viewport, an offset inside the first cycle
      leaves the viewport inside `n + count` cells and their gaps. */
  lemma TailOutrunsViewport(n: real, count: real, cells: real, width: real, spacing: real, viewportWidth: real, offset: real)
    requires count >= 1.0 && spacing >= 0.0 && count * width > viewportWidth
    requires offset <= n * width + n * spacing
    requires cells == n + count
    ensures offset + viewportWidth <= cells * (width + spacing) - spacing
  {
    assert (count - 1.0) * spacing >= 0.0;
    assert (n + count) * (width + spacing) - spacing
        == (n * width + n * spacing) + count * width + (count - 1.0) * spacing;
  }
}

=== FILE: metrics.dfy ===
/** Sizing of the looping carousel: how many copies of the items are appended
    after the originals so that the viewport is always filled. Lengths are
    modelled as `real`; the platform's floating-point details are not. */
module Metrics {

  /** Swift's `rounded()` (to nearest, ties away from zero) on a
      non-negative argument: the unique integer within half a unit of `x`,
      taking the upper one on a tie. */
  function Rounded(x: real): (r: int)
    requires x >= 0.0
    ensures r >= 0
    ensures x - 0.5 < r as real <= x + 0.5
  {
    (x + 0.5).Floor
  }

  /** The least integer not below `x`. */
  function Ceil(x: real): (r: int)
    ensures x <= r as real < x + 1.0
  {
    -((-x).Floor)
  }

  /** Number of items repeated after the originals: the viewport measured in
      item widths, rounded, plus one. A non-positive item width falls back to
      a single repetition rather than dividing by zero. */
  function RepeatCount(width: real, viewportWidth: real): (r: nat)
    requires viewportWidth >= 0.0
    ensures r >= 1
    ensures width <= 0.0 ==> r == 1
    ensures width > 0.0 ==> viewportWidth / width + 0.5 < r as real <= viewportWidth / width + 1.5
  {
    if width > 0.0 then
      assert viewportWidth / width >= 0.0 by { DivNonNegative(viewportWidth, width); }
      Rounded(viewportWidth / width) + 1
    else 1
  }

  lemma DivNonNegative(a: real, b: real)
    requires a >= 0.0 && b > 0.0
    ensures a / b >= 0.0
  {
  }

  /** The repeated tail is wider than the viewport by at least half an item,
      so the padded content covers the viewport at any in-cycle offset. */
  lemma RepeatCountCoversViewport(width: real, viewportWidth: real)
    requires width > 0.0 && viewportWidth >= 0.0
    ensures RepeatCount(width, viewportWidth) as real * width > viewportWidth + width / 2.0
  {
    var r := RepeatCount(width, viewportWidth) as real;
    var q := viewportWidth / width;
    var excess := r - (q + 0.5);
    assert q * width == viewportWidth;
    assert excess > 0.0;
    assert excess * width > 0.0;
    assert r * width == (q + 0.5 + excess) * width == viewportWidth + width / 2.0 + excess * width;
  }

  /** Rounding instead of taking the ceiling costs at most one repetition:
      the count lies between the ceiling of the viewport in item widths and
      one more than that. */
  lemma RepeatCountAgainstCeiling(width: real, viewportWidth: real)
    requires width > 0.0 && viewportWidth >= 0.0
    ensures Ceil(viewportWidth / width) <= RepeatCount(width, viewportWidth) <= Ceil(viewportWidth / width) + 1
  {
  }

  /** A viewport of 320 with items 150 wide gets three repetitions, where the
      ceiling rule would ask for four; both still cover the viewport. */
  lemma RoundingBelowCeilingExample()
    ensures RepeatCount(150.0, 320.0) == 3
    ensures Ceil(320.0 / 150.0) + 1 == 4
  {
    assert 320.0 / 150.0 == 32.0 / 15.0;
    assert Rounded(32.0 / 15.0) == 2;
    assert Ceil(32.0 / 15.0) == 3;
  }
}

=== FILE: multi_row_looping_scroll_view.dfy ===
/** The three-row radial carousel: three copies of the looping row, each
    with its own scale and horizontal offset, sharing one scroll delegate,
    and every card rotated by how far it sits from the leading edge. */
module MultiRowLoopingScrollView {
  import Metrics
  import Layout
  import Render
  import LoopingScrollView

  /** Degrees of rotation per card width of distance. */
  const AngleForEachCard: real := -20.0

  /** Largest distance, in card widths, that still adds rotation. */
  const ProgressCap: real := 3.0

  /** A row's placement: horizontal offset, position from the bottom, and
      the scale applied to each of its cards. */
  datatype RowSpec = RowSpec(offset: real, rowIndex: nat, scale: real)

  /** The fixed row table: the bottom row full size, the middle row smaller
      and shifted by `rowOffsetAmount`, the top row smallest and aligned with
      the bottom one. */
  function Rows(rowOffsetAmount: real): (rows: seq<RowSpec>)
    ensures |rows| == 3
    ensures forall i :: 0 <= i < |rows| ==> rows[i].rowIndex == i
    ensures forall i, j :: 0 <= i < j < |rows| ==> rows[j].scale < rows[i].scale
    ensures forall i :: 0 <= i < |rows| ==> 0.0 < rows[i].scale <= 1.0
    ensures rows[0].scale == 1.0 && rows[1].scale == 0.8 && rows[2].scale == 0.6
    ensures rows[0].offset == 0.0 && rows[1].offset == rowOffsetAmount && rows[2].offset == 0.0
  {
    [RowSpec(0.0, 0, 1.0), RowSpec(rowOffsetAmount, 1, 0.8), RowSpec(0.0, 2, 0.6)]
  }

  /** One drawn row: its placement and its cards. */
  datatype RowView<T> = RowView(spec: RowSpec, cards: seq<LoopingScrollView.Cell<T>>)

  /** What the view hands to the layout: its rows and the scroll delegate. */
  datatype Drawing<T> = Drawing(rows: seq<RowView<T>>, helper: LoopingScrollView.Coordinator)

  /** The rows drawn for `count` repetitions: each row lays out the same
      cards as the single-row carousel, every card pinned to the item width. */
  function Body<T>(items: seq<T>, count: nat, rowOffsetAmount: real): (rows: seq<RowView<T>>)
    ensures |rows| == 3
    ensures forall i :: 0 <= i < |rows| ==> rows[i].spec == Rows(rowOffsetAmount)[i]
    ensures forall i :: 0 <= i < |rows| ==> rows[i].cards == LoopingScrollView.Body(items, count)
  {
    var specs := Rows(rowOffsetAmount);
    var cards := LoopingScrollView.Body(items, count);
    [RowView(specs[0], cards), RowView(specs[1], cards), RowView(specs[2], cards)]
  }

  /** The view for a viewport of the given width, as drawn: the same rounded
      repetition count as the single-row carousel sizes every row's tail and
      the one shared delegate. Every card is pinned to the item width, and
      with no items the first tail index traps. */
  function View<T>(items: seq<T>, width: real, spacing: real, viewportWidth: real, rowOffsetAmount: real): (r: Render.Drawn<Drawing<T>>)
    requires viewportWidth >= 0.0
    ensures r.Trapped? <==> |items| == 0
    ensures r.Ok? ==> r.value.helper == LoopingScrollView.Coordinator(width, spacing, |items|, Metrics.RepeatCount(width, viewportWidth))
    ensures r.Ok? ==> |r.value.rows| == 3
    ensures r.Ok? ==> forall i :: 0 <= i < |r.value.rows| ==>
      r.value.rows[i].spec == Rows(rowOffsetAmount)[i] &&
      r.value.rows[i].cards == LoopingScrollView.Body(items, r.value.helper.repeatingCount)
  {
    var count := Metrics.RepeatCount(width, viewportWidth);
    match Render.PaddedAsWritten(items, count)
    case Trapped(fault) => Render.Trapped(fault)
    case Ok(_) => Render.Ok(Drawing(Body(items, count, rowOffsetAmount), LoopingScrollView.Coordinator(width, spacing, |items|, count)))
  }

  /** Against the single-row view: both trap on the same inputs and install
      the same delegate, and each row draws the single-row cells with the
      tail pinned to the item width as well. */
  lemma ViewFramesTheSingleRowTail<T>(items: seq<T>, width: real, spacing: real, viewportWidth: real, rowOffsetAmount: real)
    requires viewportWidth >= 0.0
    ensures View(items, width, spacing, viewportWidth, rowOffsetAmount).Trapped?
        <==> LoopingScrollView.View(items, width, spacing, viewportWidth).Trapped?
    ensures View(items, width, spacing, viewportWidth, rowOffsetAmount).Ok? ==>
      var multi := View(items, width, spacing, viewportWidth, rowOffsetAmount).value;
      var single := LoopingScrollView.View(items, width, spacing, viewportWidth).value;
      multi.helper == single.helper &&
      forall i :: 0 <= i < |multi.rows| ==>
        |multi.rows[i].cards| == |single.cells| &&
        forall k :: 0 <= k < |single.cells| ==> multi.rows[i].cards[k] == LoopingScrollView.Cell(single.cells[k].item, true)
  {
  }

  /** Every row of the view repeats itself after one cycle of the shared
      delegate, so the one wraparound step serves all three rows. */
  lemma EveryRowSeamless<T>(items: seq<T>, width: real, spacing: real, viewportWidth: real, rowOffsetAmount: real, intrinsic: T -> real)
    requires viewportWidth >= 0.0 && |items| > 0
    ensures View(items, width, spacing, viewportWidth, rowOffsetAmount).Ok?
    ensures var d := View(items, width, spacing, viewportWidth, rowOffsetAmount).value;
      forall i :: 0 <= i < |d.rows| ==>
        Layout.Seamless(LoopingScrollView.CellWidths(d.rows[i].cards, width, intrinsic), spacing, |items|, LoopingScrollView.Cycle(d.helper))
  {
    var count := Metrics.RepeatCount(width, viewportWidth);
    LoopingScrollView.BodyIsSeamless(items, count, width, spacing, intrinsic);
  }

  /** After the step, the viewport lies within every row's content: each
      row is the framed body, and its tail outruns the viewport. */
  lemma StepKeepsEveryRowFilled<T>(items: seq<T>, width: real, spacing: real, viewportWidth: real, rowOffsetAmount: real,
                                   intrinsic: T -> real, contentOffset: real)
    requires viewportWidth >= 0.0 && |items| > 0 && width > 0.0 && spacing >= 0.0
    requires View(items, width, spacing, viewportWidth, rowOffsetAmount).Ok?
    requires var c := View(items, width, spacing, viewportWidth, rowOffsetAmount).value.helper;
      -LoopingScrollView.Cycle(c) <= contentOffset <= 2.0 * LoopingScrollView.Cycle(c)
    ensures var d := View(items, width, spacing, viewportWidth, rowOffsetAmount).value;
      forall i :: 0 <= i < |d.rows| ==>
        0.0 <= LoopingScrollView.DidScroll(d.helper, contentOffset) &&
        LoopingScrollView.DidScroll(d.helper, contentOffset) + viewportWidth
          <= Layout.ContentWidth(LoopingScrollView.CellWidths(d.rows[i].cards, width, intrinsic), spacing)
  {
    var count := Metrics.RepeatCount(width, viewportWidth);
    Metrics.RepeatCountCoversViewport(width, viewportWidth);
    LoopingScrollView.StepKeepsViewportFilled(items, count, width, spacing, viewportWidth, intrinsic, contentOffset);
  }

  /** Swift's `min`: the second argument when strictly smaller. */
  function Min(a: real, b: real): (m: real)
    ensures m <= a && m <= b && (m == a || m == b)
  {
    if b < a then b else a
  }

  /** Swift's `max`: the second argument when at least as large. */
  function Max(a: real, b: real): (m: real)
    ensures m >= a && m >= b && (m == a || m == b)
  {
    if b >= a then b else a
  }

  /** The progress used for rotation: negative progress is clamped into
      `[-3, 0]`, the rest into `[0, 3]`. */
  function CappedProgress(progress: real): (p: real)
    ensures -ProgressCap <= p <= ProgressCap
    ensures progress < 0.0 ==> -ProgressCap <= p <= 0.0
    ensures progress >= 0.0 ==> 0.0 <= p <= ProgressCap
    ensures -ProgressCap <= progress <= ProgressCap ==> p == progress
    ensures progress < -ProgressCap ==> p == -ProgressCap
    ensures progress > ProgressCap ==> p == ProgressCap
  {
    if progress < 0.0 then Min(Max(progress, -ProgressCap), 0.0)
    else Max(Min(progress, ProgressCap), 0.0)
  }

  /** Symmetric clamp into `[-3, 3]`, the reference the capped progress is
      checked against. */
  function Clamp(x: real): real
  {
    if x < -ProgressCap then -ProgressCap else if x > ProgressCap then ProgressCap else x
  }

  /** The two-sided clamp of the source is the plain symmetric clamp. */
  lemma CappedProgressIsClamp(progress: real)
    ensures CappedProgress(progress) == Clamp(progress)
  {
  }

  /** Capping keeps order, commutes with negation, and is idempotent. */
  lemma CappedProgressShape(p: real, q: real)
    ensures p <= q ==> CappedProgress(p) <= CappedProgress(q)
    ensures CappedProgress(-p) == -CappedProgress(p)
    ensures CappedProgress(CappedProgress(p)) == CappedProgress(p)
  {
  }

  /** Rotation of a card whose leading edge is `minX` from the scroll view's
      leading edge: its distance in card widths, capped, times the angle per
      card. A card at the edge stands upright; no card turns by more than
      three cards' worth. */
  function CardRotation(minX: real, width: real): (degrees: real)
    requires width != 0.0
    ensures -60.0 <= degrees <= 60.0
    ensures minX == 0.0 ==> degrees == 0.0
    ensures -ProgressCap <= minX / width <= ProgressCap ==> degrees == AngleForEachCard * (minX / width)
    ensures minX / width > 0.0 ==> degrees <= 0.0
    ensures minX / width < 0.0 ==> degrees >= 0.0
    ensures minX / width > ProgressCap ==> degrees == -60.0
    ensures minX / width < -ProgressCap ==> degrees == 60.0
    ensures degrees == AngleForEachCard * Clamp(minX / width)
  {
    var progress := minX / width;
    var cappedProgress := CappedProgress(progress);
    cappedProgress * AngleForEachCard
  }

  /** For a fixed positive card width, the rotation never increases with
      `minX`: the angle per card is negative and capping keeps order. */
  lemma RotationMonotone(a: real, b: real, width: real)
    requires width > 0.0 && a <= b
    ensures CardRotation(b, width) <= CardRotation(a, width)
  {
    DivMonotone(a, b, width);
    CappedProgressShape(a / width, b / width);
  }

  lemma DivMonotone(a: real, b: real, width: real)
    requires width > 0.0 && a <= b
    ensures a / width <= b / width
  {
    assert b / width - a / width == (b - a) / width;
  }

  /** Mirrored cards turn by mirrored angles. */
  lemma RotationSymmetric(minX: real, width: real)
    requires width != 0.0
    ensures CardRotation(-minX, width) == -CardRotation(minX, width)
  {
    assert -minX / width == -(minX / width);
    CappedProgressShape(minX / width, 0.0);
  }

  /** The effects applied to one card, in order: lift by the curve height,
      rotate about the bottom edge, scale by the row's factor, then shift
      back by the card's own leading edge and drop by four fifths of the
      curve height. */
  datatype CardEffect = CardEffect(lift: real, rotation: real, scale: real, shiftX: real, drop: real)

  /** The effects for one card of `row`; the rotation depends on the card's
      position only, the scale on its row only. */
  function ContentEffect(row: RowSpec, curveHeight: real, minX: real, width: real): (e: CardEffect)
    requires width != 0.0
    ensures e.scale == row.scale && -60.0 <= e.rotation <= 60.0
    ensures e.shiftX + minX == 0.0
    ensures e.rotation == CardRotation(minX, width)
    ensures e.lift + e.drop == -curveHeight / 5.0
  {
    CardEffect(-curveHeight, CardRotation(minX, width), row.scale, -minX, curveHeight * 0.8)
  }

  /** A bottom-row card at the leading edge is drawn upright, unscaled and
      unshifted, sitting a fifth of the curve height above its slot. */
  lemma LeadingCardUpright(rowOffsetAmount: real, curveHeight: real, width: real)
    requires width != 0.0
    ensures var e := ContentEffect(Rows(rowOffsetAmount)[0], curveHeight, 0.0, width);
      e.rotation == 0.0 && e.scale == 1.0 && e.shiftX == 0.0 && e.lift + e.drop == -curveHeight / 5.0
  {
  }
}

=== FILE: render.dfy ===
/** The padded render sequence drawn by both carousel views: the original
    items followed by a tail of `count` items taken cyclically from the
    start. */
module Render {

  /** Runtime traps of the drawing code. */
  datatype Fault = DivisionByZero

  /** The outcome of evaluating the drawing code: a value, or a trap. */
  datatype Drawn<T> = Ok(value: T) | Trapped(fault: Fault)

  /** Tail element `j` repeats the item at `j` modulo the item count. With no
      items there is nothing to repeat, and the sequence stays empty. */
  function Padded<T>(items: seq<T>, count: nat): (r: seq<T>)
    ensures |items| == 0 ==> r == []
    ensures |items| > 0 ==> |r| == |items| + count
    ensures |items| > 0 ==> r[..|items|] == items
    ensures |items| > 0 ==> forall j :: 0 <= j < count ==> r[|items| + j] == items[j % |items|]
  {
    if |items| == 0 then []
    else items + seq(count, j requires 0 <= j < count => items[j % |items|])
  }

  /** The drawing code as written: each tail index is reduced modulo the item
      count, which divides by zero when there are no items but at least one
      tail index. */
  function PaddedAsWritten<T>(items: seq<T>, count: nat): (r: Drawn<seq<T>>)
    ensures r.Trapped? <==> |items| == 0 && count > 0
    ensures r.Ok? ==> r.value == Padded(items, count)
  {
    if count > 0 && |items| == 0 then Trapped(DivisionByZero)
    else if |items| == 0 then Ok(items)
    else Ok(items + seq(count, j requires 0 <= j < count => items[j % |items|]))
  }

  /** Every position of the padded sequence, original or repeated, holds the
      item at that position modulo the item count; so the sequence repeats
      itself with period `|items|`. */
  lemma {:induction false} PaddedIsPeriodic<T>(items: seq<T>, count: nat)
    requires |items| > 0
    ensures forall k :: 0 <= k < |Padded(items, count)| ==> Padded(items, count)[k] == items[k % |items|]
    ensures forall k :: 0 <= k && k + |items| < |Padded(items, count)| ==> Padded(items, count)[k + |items|] == Padded(items, count)[k]
  {
    var r := Padded(items, count);
    var n := |items|;
    forall k | 0 <= k < |r|
      ensures r[k] == items[k % n]
    {
      if k < n {
        assert r[k] == r[..n][k];
        ModUnique(k, n, 0, k);
      } else {
        assert r[n + (k - n)] == items[(k - n) % n];
        ShiftMod(k - n, n);
      }
    }
    forall k | 0 <= k && k + n < |r|
      ensures r[k + n] == r[k]
    {
      ShiftMod(k, n);
    }
  }

  /** The padded sequence repeats itself `|items|` places on. */
  lemma PaddedRepeats<T>(items: seq<T>, count: nat)
    requires |items| > 0
    ensures forall k :: |items| <= k < |Padded(items, count)| ==> Padded(items, count)[k] == Padded(items, count)[k - |items|]
  {
    PaddedIsPeriodic(items, count);
    var r := Padded(items, count);
    forall k | |items| <= k < |r|
      ensures r[k] == r[k - |items|]
    {
      assert r[(k - |items|) + |items|] == r[k - |items|];
    }
  }

  /** Adding the modulus does not change the remainder. */
  lemma ShiftMod(j: nat, n: nat)
    requires n > 0
    ensures (n + j) % n == j % n
  {
    var q := j / n;
    assert j == q * n + j % n;
    assert (q + 1) * n == q * n + n;
    ModUnique(n + j, n, q + 1, j % n);
  }

  /** Euclidean remainder is determined by any quotient-remainder split. */
  lemma ModUnique(a: int, n: int, q: int, r: int)
    requires n > 0 && 0 <= r < n && a == q * n + r
    ensures a % n == r
  {
    var q' := a / n;
    var r' := a % n;
    assert a == q' * n + r';
    var d := q - q';
    assert d * n == r' - r by {
      assert q * n - q' * n == d * n;
    }
    if d > 0 {
      MulAtLeast(d, n);
    } else if d < 0 {
      MulAtLeast(-d, n);
    }
  }

  lemma MulAtLeast(k: int, n: int)
    requires k >= 1 && n > 0
    ensures k * n >= n
  {
    assert (k - 1) * n >= 0;
    assert k * n == (k - 1) * n + n;
  }
}
